=== FILE: README.md ===
# Keyword-driven depression and stress scoring

A Dafny model of the decision logic of the mental-health detector web app
(`app.py`): the keyword tallies over the lower-cased input text, the
depression cascade (`analyze_depression_level`), the stress score
(`analyze_stress_level`, with the sentiment polarity as a parameter) and
the recommendation table (`get_recommendations`).

Modules, one per component:

- `Text` (text.dfy): lower-casing of the characters whose lower-case form
  is an ASCII letter (ASCII capitals and the Kelvin sign), and substring containment
  (`phrase in text`), with a recursive search and a positional definition
  proved equivalent.
- `Lexicon` (lexicon.dfy): the six keyword tiers and the tier tally. The
  tally counts how many listed phrases occur in the lower-cased text.
- `Depression` (depression.dfy): the four-way priority cascade to fixed
  (level, score, message) entries.
- `Stress` (stress.dfy): `|polarity| * 30` plus 40/25/10 per high/medium/low
  hit, capped at 100. The level is bucketed on the real score, and the score
  is reported truncated to an integer.
- `Recommend` (recommend.dfy): three messages by depression band, then two,
  two or none by stress band.
- `Pipeline` (pipeline.dfy): the composition the `/analyze` route performs
  on a valid text, and end-to-end consequences.

In this model the recommendation list always has 3 or 5 entries and never
repeats a message.

The recommendation list is modelled as a sequence of message identities
(`Recommend.Advice`). `Recommend.Wording` gives each one its verbatim text,
emoji included, and `Recommend.Texts` maps a list to the strings
`get_recommendations` returns. The depression and stress explanations are
kept as verbatim strings. Only the identity and order of messages matter
to the proofs.

## Model

| member | source | states |
|---|---|---|
| Text.Lower | app.py:34 | the lower-cased text has the same length, no capitals left (ASCII capitals, Kelvin sign), and each character equals the original up to case |
| Text.LowerIsUnique | app.py:34 | any lower-case string matching the text up to case is its lower-cased form, so `Lower`'s contract fixes the result |
| Text.LowerChar | app.py:34 | one lower-cased character is no capital, is the original character up to case, and differs from it exactly when the original is a capital (the Kelvin sign becomes 'k') |
| Text.LowerIgnoresCase | app.py:34 | two texts have the same lower-cased form exactly when they are equal up to case |
| Text.Occurs | app.py:35-37 | `k in text_lower`: a contained phrase is never longer than the text; `Text.OccursIffSomePosition` gives its positional meaning |
| Text.OccursIffSomePosition | app.py:35 | the containment test `k in text_lower` holds exactly when `k` sits at some position of the text |
| Text.OccursInContext | app.py:56 | a phrase contained in a text stays contained when text is added before or after |
| Text.OccursTransitive | app.py:28 | a phrase inside a contained phrase is contained too (e.g. "pressure" inside "too much pressure") |
| Lexicon.Count | app.py:35-37 | a tally lies between 0 and the tier size; it is 0 exactly when no phrase occurs and the tier size exactly when all occur |
| Lexicon.CountIsDistinctHits | app.py:35-37 | for a tier without repeats the tally is the number of distinct tier phrases found, each counted once however often it occurs |
| Lexicon.CountMonotone | app.py:56-58 | a text containing every tier phrase of another text has a tally at least as large |
| Lexicon.Tally | app.py:34-37 | the tally of the raw text is bounded by the tier size, is 0 exactly when no phrase occurs in the lower-cased text, and for a tier without repeats equals the number of distinct tier phrases found in the lower-cased text |
| Lexicon.TiersAreDistinct | app.py:20-30 | every tier lists its phrases once; the tier sizes are 7, 7, 7 (depression) and 6, 6, 4 (stress) |
| Lexicon.TallyIgnoresCase | app.py:55-58 | texts equal up to case have equal tallies |
| Lexicon.TallyGrowsWithText | app.py:35-37 | adding text before or after never lowers a tally |
| Lexicon.OverwhelmedHitsBothLexicons | app.py:22-27 | a text containing "overwhelmed" hits both the medium-risk depression tier and the high stress tier |
| Lexicon.TooMuchPressureHitsBothTiers | app.py:27-28 | a text containing "too much pressure" hits both the high and the medium stress tier, because "pressure" sits inside it |
| Depression.Classify | app.py:39-50 | the level is DANGEROUS iff high > 0; HIGH RISK iff high = 0 and med >= 2; MODERATE iff high = 0 and (med = 1 or med = 0 with low >= 3); LOW iff high = med = 0 and low < 3 |
| Depression.Assess | app.py:39-52 | the result is one of the four fixed entries with score in {90, 70, 50, 20}; its level is the one the cascade `Classify` picks from the three tallies, so any high-risk hit gives DANGEROUS LEVEL with score 90 whatever the other counts |
| Depression.ScoreDeterminesLevel | app.py:39-50 | two levels have the same score exactly when they are the same level, so each score belongs to one level |
| Depression.AssessMonotone | app.py:39-50 | more hits in any tier never lower the depression score |
| Depression.AnalyzeDepression | app.py:33-52 | the result is a fixed entry; it is DANGEROUS LEVEL exactly when some high-risk phrase occurs in the lower-cased text, HIGH RISK exactly when none does and the medium-risk tally is at least 2, and MODERATE RISK exactly when none does and either the medium-risk tally is 1 or it is 0 with a low-risk tally of at least 3 (LOW RISK otherwise) |
| Depression.KelvinSignSpellingIsDangerous | app.py:34-40 | "kill myself" written with the Kelvin sign U+212A for the "k" is lower-cased to the high-risk phrase and so gives DANGEROUS LEVEL |
| Depression.KeywordFreeTextIsLowRisk | app.py:35-50 | a text containing no depression phrase is LOW RISK |
| Depression.AnalyzeIgnoresCase | app.py:34-37 | texts equal up to case get the same depression assessment |
| Depression.AnalyzeGrowsWithText | app.py:35-50 | adding text before or after never lowers the depression score |
| Stress.Abs | app.py:61 | the absolute value is non-negative and equals the argument or its negation |
| Stress.Truncate | app.py:72 | `int()` truncates toward zero: for x >= 0 the result r has r <= x < r + 1, and for x < 0 it has r - 1 < x <= r |
| Stress.KeywordStress | app.py:62 | the keyword part is at least 40 per high, 25 per medium and 10 per low hit |
| Stress.RawScore | app.py:61-63 | the pre-truncation score is `min(100, abs(p) * 30 + keyword)`: it lies in [0, 100], never exceeds the sum, equals the sum when it is below 100, and is 100 when the sum reaches 100 |
| Stress.Bucket | app.py:65-70 | the level is chosen on the real score before truncation, HIGH from 70 and MODERATE from 40; `Stress.Assess`'s level iffs show this agrees with the thresholds on the reported integer |
| Stress.Assess | app.py:60-72 | the reported score is the integer part of `min(100, abs(p) * 30 + 40h + 25m + 10l)`: never above that sum, and either 100 or within 1 below it; HIGH iff score >= 70, MODERATE iff 40 <= score < 70, LOW iff score < 40, with the level's fixed message |
| Stress.TruncateKeepsThreshold | app.py:65-72 | for non-negative x and an integer t, int(x) >= t iff x >= t, so bucketing the real score and bucketing the integer agree |
| Stress.TruncateMonotone | app.py:72 | truncation of non-negative reals preserves order |
| Stress.AssessMonotone | app.py:62-63 | with the polarity fixed, more hits in any tier never lower the stress score |
| Stress.NoKeywordsIsLow | app.py:61-70 | with no keyword hit the score is at most 30 and the level is LOW STRESS, for every polarity in [-1, 1] |
| Stress.ScoreAtLeastKeywords | app.py:61-63 | the reported score is at least the keyword part, or 100 when that part reaches 100 |
| Stress.HighHitIsAtLeastModerate | app.py:62-67 | one high-stress hit gives at least MODERATE STRESS |
| Stress.AnalyzeStress | app.py:54-72 | for every text and polarity the score is the integer part of `min(100, abs(p) * 30 + 40h + 25m + 10l)` over the text's three stress tallies, in [0, 100]; the level agrees with it by the 70/40 thresholds and carries its fixed message |
| Stress.KeywordFreeTextIsLow | app.py:56-70 | a text containing no stress phrase is LOW STRESS whatever its polarity |
| Stress.AnalyzeIgnoresCase | app.py:55-58 | texts equal up to case, with the same polarity, get the same stress assessment |
| Stress.AnalyzeGrowsWithText | app.py:56-63 | with the polarity fixed, adding text before or after never lowers the stress score |
| Recommend.MoodBandOf | app.py:83-89 | the depression score tests `>= 70` and `>= 50` split scores into three bands; `Recommend.Recommendations` ties each band to its messages |
| Recommend.StressBandOf | app.py:102-107 | the stress score tests `>= 70` and `>= 40` split scores into three bands; `Recommend.Recommendations` ties each band to its messages |
| Recommend.MoodAdvice | app.py:83-100 | every depression band contributes exactly three messages |
| Recommend.StressAdvice | app.py:102-111 | the stress bands contribute two, two and no messages |
| Recommend.Texts | app.py:84-111 | a list of messages is shown as their wordings, one per message in the same order |
| Recommend.Recommendations | app.py:80-113 | the list has 3 or 5 entries, 5 iff the stress score is >= 40; it is the depression band's three messages followed by the stress band's messages |
| Recommend.RecommendationsHaveNoRepeats | app.py:80-113 | a recommendation list never repeats a message |
| Recommend.RecommendationsDetermineBands | app.py:80-113 | two assessment pairs get the same list iff they fall in the same depression band (>=70 / >=50 / else) and the same stress band (>=70 / >=40 / else) |
| Recommend.ForLevels | app.py:83-111 | the advice for a pair of levels has 3 entries when stress is LOW and 5 otherwise |
| Recommend.CalmLowRiskIsSelfCare | app.py:95-111 | LOW RISK with LOW STRESS gives exactly the three self-care messages |
| Recommend.RecommendationsFollowLevels | app.py:83-111 | for assessments whose score matches their level, the score-based selection equals the level-based reference `ForLevels` |
| Pipeline.Analyze | app.py:152-155 | the report keeps the text, and its recommendations are fixed by the depression and stress levels alone |
| Pipeline.Render | app.py:157-163 | the response keeps the text, shows each level by its label ("DANGEROUS LEVEL" … "LOW STRESS"), keeps each assessment's score and message, and shows the recommendations as their wordings in order |
| Pipeline.AnalyzeIgnoresCase | app.py:152-155 | texts equal up to case, with the same polarity, get the same assessments and recommendations |
| Pipeline.OverwhelmedGetsFiveRecommendations | app.py:22-27 | "overwhelmed" is in both lexicons, so a text containing it scores at least 50 for depression, is not LOW STRESS and gets five recommendations |
| Pipeline.TooMuchPressureScoresBothTiers | app.py:27-28 | a text containing "too much pressure" also contains "pressure", so it hits both the high and medium stress tiers and scores at least 65 |
| Pipeline.QuietTextGetsSelfCare | app.py:20-113 | a text with no phrase of either lexicon is LOW RISK and LOW STRESS and gets exactly the three self-care messages |

## Left out

- Text.Lower, Text.LowerChar: `LowerChar` maps the ASCII capitals and the Kelvin sign U+212A (which Python lower-cases to 'k') and keeps every other character. Python's `str.lower` also maps the other non-ASCII capitals to non-ASCII letters, and U+0130 to the two characters 'i' and U+0307. Every keyword is lower-case ASCII and none ends in 'i', so these mappings should not change which keywords occur. The model does not prove this.
- Recommend.RecommendationsHaveNoRepeats: states that no message identity repeats, not that no message string repeats. The thirteen wordings are treated as opaque constants, and the model does not prove that they differ from each other.
- Sentiment polarity (`TextBlob(text).sentiment.polarity`, app.py:60) comes from an external library. It is a parameter of type `Stress.Polarity`, a real in [-1, 1]. Dafny reals are exact. The source computes in IEEE double precision, and the model leaves that rounding out in four places: the product `abs(polarity) * 30`, the sum with the keyword part (app.py:61-63), the `>= 70` and `>= 40` tests on the rounded sum (app.py:65, 67), and `int()` of it (app.py:72). Near the 40 and 70 thresholds the float program and the model can disagree. For example, take polarity 0.9999999999999999 (1 − 2⁻⁵³) and one high hit. The double sum rounds to 70.0, so the source gives HIGH STRESS with score 70. `Stress.Assess` gives MODERATE STRESS with score 69. The case-insensitivity lemmas for stress assume the same polarity for both texts.
- Emotion classification (`emotion_classifier`, `analyze_emotions`, app.py:11-15, 74-78) is a black-box transformer model with float rounding and a dictionary-order tie-break. It is not modelled, so `Pipeline.Report` and `Pipeline.Response` have no emotion field. `Pipeline.Analyze` describes only requests in which the call at app.py:154 returns. If the classifier raises, nothing at app.py:74-78 or around app.py:154 catches the exception. The request then fails and the client gets no report at all, a case the model does not represent.
- HTTP transport is not modelled: the Flask app, the `home` and `analyze` routes, templates, form handling, the "No valid text or voice input detected" reply (app.py:17, 128-149, 164-166), and the JSON serialisation by `jsonify`. `Pipeline.Analyze` models the calls at app.py:152-153 and 155 on a text that passed those checks. `Pipeline.Render` models the dictionary built at app.py:157-163, without its emotion entry.
- Speech recognition (`speech_to_text`, temporary files, `os.remove`, app.py:116-125, 141-146) is audio I/O plus an external speech API, so it is not modelled.

=== FILE: depression.dfy ===
/** Depression assessment: a priority cascade from the three depression
    tier tallies to one of four fixed (level, score, message) entries. */
module Depression {
  import opened Text
  import opened Lexicon

  datatype Level = Dangerous | HighRisk | ModerateRisk | LowRisk

  datatype Assessment = Assessment(level: Level, score: int, explanation: string)

  /** The label reported for a level. */
  function LevelName(l: Level): string {
    match l
    case Dangerous => "DANGEROUS LEVEL"
    case HighRisk => "HIGH RISK"
    case ModerateRisk => "MODERATE RISK"
    case LowRisk => "LOW RISK"
  }

  /** The score each level is reported with. */
  function ScoreOf(l: Level): int {
    match l
    case Dangerous => 90
    case HighRisk => 70
    case ModerateRisk => 50
    case LowRisk => 20
  }

  /** The message each level is reported with. */
  function Message(l: Level): string {
    match l
    case Dangerous => "⚠️ IMMEDIATE ATTENTION NEEDED: Severe depression signs detected."
    case HighRisk => "🔴 High depression risk detected. Professional help is strongly advised."
    case ModerateRisk => "🟡 Moderate signs of low mood or sadness."
    case LowRisk => "🟢 Your text shows no major signs of depression."
  }

  /** The fixed entry of a level: its score and its message. */
  function Entry(l: Level): Assessment {
    Assessment(l, ScoreOf(l), Message(l))
  }

  /** The level chosen from the high-, medium- and low-risk tallies. Any
      high-risk hit wins; two medium hits come next; then one medium hit or
      three low hits; everything else is low risk. */
  function Classify(high: nat, med: nat, low: nat): (l: Level)
    ensures l == Dangerous <==> high > 0
    ensures l == HighRisk <==> high == 0 && med >= 2
    ensures l == ModerateRisk <==> high == 0 && (med == 1 || (med == 0 && low >= 3))
    ensures l == LowRisk <==> high == 0 && med == 0 && low < 3
  {
    if high > 0 then Dangerous
    else if med >= 2 then HighRisk
    else if low >= 3 || med >= 1 then ModerateRisk
    else LowRisk
  }

  /** The assessment for given tallies: always one of the four fixed
      entries, so the score is one of 90, 70, 50, 20. */
  function Assess(high: nat, med: nat, low: nat): (a: Assessment)
    ensures a == Entry(a.level)
    ensures a.score in {90, 70, 50, 20}
    ensures high > 0 ==> a.level == Dangerous && a.score == 90
    ensures a.level == Classify(high, med, low)
  {
    Entry(Classify(high, med, low))
  }

  /** The score alone identifies the level (and so the whole entry). */
  lemma ScoreDeterminesLevel(a: Level, b: Level)
    ensures ScoreOf(a) == ScoreOf(b) <==> a == b
  {
  }

  /** More hits in any tier never lower the depression score. */
  lemma AssessMonotone(h1: nat, m1: nat, l1: nat, h2: nat, m2: nat, l2: nat)
    requires h1 <= h2 && m1 <= m2 && l1 <= l2
    ensures Assess(h1, m1, l1).score <= Assess(h2, m2, l2).score
  {
  }

  /** `analyze_depression_level`: tally the three tiers over the lower-cased
      text and assess. The result is "DANGEROUS LEVEL" exactly when some
      high-risk phrase occurs in the text. */
  function AnalyzeDepression(text: string): (a: Assessment)
    ensures a == Entry(a.level)
    ensures a.level == Dangerous <==>
      exists i :: 0 <= i < |DepressionHighRisk| && Occurs(DepressionHighRisk[i], Lower(text))
    ensures a.level == HighRisk <==>
      Tally(text, DepressionHighRisk) == 0 && Tally(text, DepressionMediumRisk) >= 2
    ensures a.level == ModerateRisk <==>
      Tally(text, DepressionHighRisk) == 0 &&
      (Tally(text, DepressionMediumRisk) == 1 ||
       (Tally(text, DepressionMediumRisk) == 0 && Tally(text, DepressionLowRisk) >= 3))
  {
    var high := Tally(text, DepressionHighRisk);
    assert high > 0 <==> exists i :: 0 <= i < |DepressionHighRisk| && Occurs(DepressionHighRisk[i], Lower(text));
    Assess(high, Tally(text, DepressionMediumRisk), Tally(text, DepressionLowRisk))
  }

  /** A text with no depression phrase at all is LOW RISK. */
  lemma KeywordFreeTextIsLowRisk(text: string)
    requires NoneOccur(text, DepressionHighRisk)
    requires NoneOccur(text, DepressionMediumRisk)
    requires NoneOccur(text, DepressionLowRisk)
    ensures AnalyzeDepression(text).level == LowRisk
  {
    assert Tally(text, DepressionHighRisk) == 0;
    assert Tally(text, DepressionMediumRisk) == 0;
    assert Tally(text, DepressionLowRisk) == 0;
  }

  /** The Kelvin sign is lower-cased to 'k', so a text spelling "kill
      myself" with it is still DANGEROUS LEVEL. */
  lemma KelvinSignSpellingIsDangerous()
    ensures AnalyzeDepression([KelvinSign] + "ill myself").level == Dangerous
  {
    var text := [KelvinSign] + "ill myself";
    var phrase := DepressionHighRisk[1];
    assert phrase == "kill myself";
    assert Lower(text)[0] == 'k';
    assert Lower(text) == phrase;
    PositionGivesOccurs(phrase, Lower(text), 0);
  }

  /** Texts equal up to case get the same assessment. */
  lemma AnalyzeIgnoresCase(a: string, b: string)
    requires SameIgnoringCase(a, b)
    ensures AnalyzeDepression(a) == AnalyzeDepression(b)
  {
    LowerIgnoresCase(a, b);
  }

  /** Writing more never lowers the depression score. */
  lemma AnalyzeGrowsWithText(text: string, pre: string, post: string)
    ensures AnalyzeDepression(text).score <= AnalyzeDepression(pre + text + post).score
  {
    TallyGrowsWithText(text, pre, post, DepressionHighRisk);
    TallyGrowsWithText(text, pre, post, DepressionMediumRisk);
    TallyGrowsWithText(text, pre, post, DepressionLowRisk);
    AssessMonotone(
      Tally(text, DepressionHighRisk), Tally(text, DepressionMediumRisk), Tally(text, DepressionLowRisk),
      Tally(pre + text + post, DepressionHighRisk), Tally(pre + text + post, DepressionMediumRisk),
      Tally(pre + text + post, DepressionLowRisk));
  }
}

=== FILE: lexicon.dfy ===
/** The two keyword lexicons and the tier tally: the number of phrases of a
    tier that occur in the lower-cased text. */
module Lexicon {
  import opened Text

  /** One severity tier of a lexicon: an ordered list of lower-case phrases. */
  type Tier = seq<string>

  const DepressionHighRisk: Tier :=
    ["suicide", "kill myself", "end it all", "want to die", "better off dead", "harm myself", "no point living"]
  const DepressionMediumRisk: Tier :=
    ["hopeless", "empty", "numb", "cant go on", "cant cope", "overwhelmed", "dont care anymore"]
  const DepressionLowRisk: Tier :=
    ["sad", "unhappy", "down", "tired", "sleepy", "lonely", "alone"]

  const StressHigh: Tier :=
    ["overwhelmed", "cant handle", "breaking down", "too much pressure", "drowning", "panic"]
  const StressMedium: Tier :=
    ["stressed", "anxious", "worried", "pressure", "nervous", "tense"]
  const StressLow: Tier :=
    ["busy", "tired", "concerned", "apprehensive"]

  /** No phrase is listed twice in the tier. */
  predicate Distinct(tier: Tier) {
    forall i, j :: 0 <= i < j < |tier| ==> tier[i] != tier[j]
  }

  /** Number of entries of `tier` that occur in `t`; each entry adds at most
      one however often it occurs. The count is zero exactly when no entry
      occurs and equals the tier size exactly when every entry occurs. */
  function Count(t: string, tier: Tier): (n: nat)
    ensures n <= |tier|
    ensures n == 0 <==> forall i :: 0 <= i < |tier| ==> !Occurs(tier[i], t)
    ensures n == |tier| <==> forall i :: 0 <= i < |tier| ==> Occurs(tier[i], t)
    decreases |tier|
  {
    if tier == [] then 0
    else (if Occurs(tier[0], t) then 1 else 0) + Count(t, tier[1..])
  }

  /** The phrases of `tier` that occur in `t`, as a set. */
  ghost function Hits(t: string, tier: Tier): set<string> {
    set k | k in tier && Occurs(k, t)
  }

  /** For a tier without repeats the tally is the number of distinct tier
      phrases found in the text. */
  lemma {:induction false} CountIsDistinctHits(t: string, tier: Tier)
    requires Distinct(tier)
    ensures Count(t, tier) == |Hits(t, tier)|
    decreases |tier|
  {
    if tier == [] {
      assert Hits(t, tier) == {};
    } else {
      var rest := tier[1..];
      assert Distinct(rest);
      CountIsDistinctHits(t, rest);
      var first: set<string> := if Occurs(tier[0], t) then {tier[0]} else {};
      assert Hits(t, tier) == first + Hits(t, rest);
      assert tier[0] !in rest;
      assert first !! Hits(t, rest);
    }
  }

  /** The tally depends only on which phrases occur: a text in which every
      tier phrase of `t1` also occurs has a tally at least as large. */
  lemma {:induction false} CountMonotone(t1: string, t2: string, tier: Tier)
    requires forall k :: k in tier && Occurs(k, t1) ==> Occurs(k, t2)
    ensures Count(t1, tier) <= Count(t2, tier)
    decreases |tier|
  {
    if tier != [] {
      assert tier[0] in tier;
      assert forall k :: k in tier[1..] ==> k in tier;
      CountMonotone(t1, t2, tier[1..]);
    }
  }

  /** No phrase of the tier occurs in the lower-cased text. */
  predicate NoneOccur(text: string, tier: Tier) {
    forall i :: 0 <= i < |tier| ==> !Occurs(tier[i], Lower(text))
  }

  /** Tier tally of a raw text: the text is lower-cased first. For a tier
      without repeats it is the number of distinct tier phrases found. */
  function Tally(text: string, tier: Tier): (n: nat)
    ensures n <= |tier|
    ensures n == 0 <==> NoneOccur(text, tier)
    ensures Distinct(tier) ==> n == |Hits(Lower(text), tier)|
  {
    var t := Lower(text);
    if Distinct(tier) then
      CountIsDistinctHits(t, tier);
      Count(t, tier)
    else
      Count(t, tier)
  }

  /** Every tier lists its phrases once, so each tally counts distinct
      phrases; the tier sizes are 7, 7, 7 and 6, 6, 4. */
  lemma TiersAreDistinct()
    ensures Distinct(DepressionHighRisk) && |DepressionHighRisk| == 7
    ensures Distinct(DepressionMediumRisk) && |DepressionMediumRisk| == 7
    ensures Distinct(DepressionLowRisk) && |DepressionLowRisk| == 7
    ensures Distinct(StressHigh) && |StressHigh| == 6
    ensures Distinct(StressMedium) && |StressMedium| == 6
    ensures Distinct(StressLow) && |StressLow| == 4
  {
  }

  /** The tally is case-insensitive: texts equal up to case have equal
      tallies. */
  lemma TallyIgnoresCase(a: string, b: string, tier: Tier)
    requires SameIgnoringCase(a, b)
    ensures Tally(a, tier) == Tally(b, tier)
  {
    LowerIgnoresCase(a, b);
  }

  /** Adding text before or after never lowers a tally. */
  lemma TallyGrowsWithText(text: string, pre: string, post: string, tier: Tier)
    ensures Tally(text, tier) <= Tally(pre + text + post, tier)
  {
    LowerConcat(pre, text);
    LowerConcat(pre + text, post);
    assert Lower(pre + text + post) == Lower(pre) + Lower(text) + Lower(post);
    forall k | k in tier && Occurs(k, Lower(text))
      ensures Occurs(k, Lower(pre + text + post))
    {
      OccursInContext(k, Lower(text), Lower(pre), Lower(post));
    }
    CountMonotone(Lower(text), Lower(pre + text + post), tier);
  }

  /** "pressure" sits inside "too much pressure", so a text with the high
      stress phrase also hits the medium tier. */
  lemma TooMuchPressureHitsBothTiers(text: string)
    requires Occurs("too much pressure", Lower(text))
    ensures Tally(text, StressHigh) >= 1 && Tally(text, StressMedium) >= 1
  {
    assert StressHigh[3] == "too much pressure";
    assert "too much pressure"[9..17] == "pressure";
    PositionGivesOccurs("pressure", "too much pressure", 9);
    OccursTransitive("pressure", "too much pressure", Lower(text));
    assert StressMedium[3] == "pressure";
    TallyCountsEntry(text, StressMedium, 3);
  }

  /** "overwhelmed" is listed in both lexicons, as a medium-risk depression
      phrase and as a high stress phrase. */
  lemma OverwhelmedHitsBothLexicons(text: string)
    requires Occurs("overwhelmed", Lower(text))
    ensures Tally(text, DepressionMediumRisk) >= 1 && Tally(text, StressHigh) >= 1
  {
    assert DepressionMediumRisk[5] == "overwhelmed";
    TallyCountsEntry(text, DepressionMediumRisk, 5);
    assert StressHigh[0] == "overwhelmed";
    TallyCountsEntry(text, StressHigh, 0);
  }

  /** A tier with an entry found in the text has a tally of at least one. */
  lemma TallyCountsEntry(text: string, tier: Tier, i: nat)
    requires i < |tier| && Occurs(tier[i], Lower(text))
    ensures Tally(text, tier) >= 1
  {
  }
}

=== FILE: pipeline.dfy ===
/** The analysis of one text: depression and stress assessments and the
    recommendations chosen from them. */
module Pipeline {
  import opened Text
  import opened Lexicon
  import Depression
  import Stress
  import Recommend

  datatype Report = Report(
    text: string,
    depression: Depression.Assessment,
    stress: Stress.Assessment,
    recommendations: seq<Recommend.Advice>)

  /** One assessment as the response shows it: level label, score and
      message. */
  datatype Shown = Shown(level: string, score: int, explanation: string)

  /** The response of the analysis route, without the emotion part. */
  datatype Response = Response(
    text: string,
    depression: Shown,
    stress: Shown,
    recommendations: seq<string>)

  /** The report as the response shows it: levels by their labels and the
      recommendations by their wording, in the same order. */
  function Render(r: Report): (out: Response)
    ensures out.text == r.text
    ensures out.depression.level == Depression.LevelName(r.depression.level)
    ensures out.stress.level == Stress.LevelName(r.stress.level)
    ensures out.depression.score == r.depression.score && out.depression.explanation == r.depression.explanation
    ensures out.stress.score == r.stress.score && out.stress.explanation == r.stress.explanation
    ensures |out.recommendations| == |r.recommendations|
    ensures forall i :: 0 <= i < |r.recommendations| ==>
      out.recommendations[i] == Recommend.Wording(r.recommendations[i])
  {
    Response(
      r.text,
      Shown(Depression.LevelName(r.depression.level), r.depression.score, r.depression.explanation),
      Shown(Stress.LevelName(r.stress.level), r.stress.score, r.stress.explanation),
      Recommend.Texts(r.recommendations))
  }

  /** The analysis of a text whose sentiment polarity is `p`. The
      recommendations are fixed by the two levels alone. */
  function Analyze(text: string, p: Stress.Polarity): (r: Report)
    ensures r.text == text
    ensures r.recommendations == Recommend.ForLevels(r.depression.level, r.stress.level)
  {
    var d := Depression.AnalyzeDepression(text);
    var s := Stress.AnalyzeStress(text, p);
    Recommend.RecommendationsFollowLevels(d, s);
    Report(text, d, s, Recommend.Recommendations(d, s))
  }

  /** Texts equal up to case, with the same polarity, get the same
      assessments and recommendations. */
  lemma AnalyzeIgnoresCase(a: string, b: string, p: Stress.Polarity)
    requires SameIgnoringCase(a, b)
    ensures Analyze(a, p).depression == Analyze(b, p).depression
    ensures Analyze(a, p).stress == Analyze(b, p).stress
    ensures Analyze(a, p).recommendations == Analyze(b, p).recommendations
  {
    Depression.AnalyzeIgnoresCase(a, b);
    Stress.AnalyzeIgnoresCase(a, b, p);
  }

  /** "overwhelmed" is both a medium-risk depression phrase and a
      high-stress phrase, so a text containing it is at least moderate on
      both and always gets five recommendations. */
  lemma OverwhelmedGetsFiveRecommendations(text: string, p: Stress.Polarity)
    requires Occurs("overwhelmed", Lower(text))
    ensures Analyze(text, p).depression.score >= 50
    ensures Analyze(text, p).stress.level != Stress.Low
    ensures |Analyze(text, p).recommendations| == 5
  {
    OverwhelmedHitsBothLexicons(text);
    var h, m, l := Tally(text, StressHigh), Tally(text, StressMedium), Tally(text, StressLow);
    Stress.HighHitIsAtLeastModerate(p, h, m, l);
    var r := Analyze(text, p);
    assert r.depression == Depression.Assess(
      Tally(text, DepressionHighRisk), Tally(text, DepressionMediumRisk), Tally(text, DepressionLowRisk));
    assert r.stress == Stress.Assess(p, h, m, l);
  }

  /** "pressure" is a medium phrase inside the high phrase "too much
      pressure", so that phrase scores both tiers: at least 65. */
  lemma TooMuchPressureScoresBothTiers(text: string, p: Stress.Polarity)
    requires Occurs("too much pressure", Lower(text))
    ensures Analyze(text, p).stress.score >= 65
  {
    TooMuchPressureHitsBothTiers(text);
    var h, m, l := Tally(text, StressHigh), Tally(text, StressMedium), Tally(text, StressLow);
    Stress.ScoreAtLeastKeywords(p, h, m, l);
    assert Stress.KeywordStress(h, m, l) >= 65;
    assert Analyze(text, p).stress == Stress.Assess(p, h, m, l);
  }

  /** A text with no phrase of either lexicon is low risk and low stress
      and gets only the three self-care messages. */
  lemma QuietTextGetsSelfCare(text: string, p: Stress.Polarity)
    requires NoneOccur(text, DepressionHighRisk)
    requires NoneOccur(text, DepressionMediumRisk)
    requires NoneOccur(text, DepressionLowRisk)
    requires NoneOccur(text, StressHigh)
    requires NoneOccur(text, StressMedium)
    requires NoneOccur(text, StressLow)
    ensures Analyze(text, p).depression.level == Depression.LowRisk
    ensures Analyze(text, p).stress.level == Stress.Low
    ensures Analyze(text, p).recommendations == Recommend.SelfCareAdvice
  {
    var d, s := Depression.AnalyzeDepression(text), Stress.AnalyzeStress(text, p);
    Depression.KeywordFreeTextIsLowRisk(text);
    Stress.KeywordFreeTextIsLow(text, p);
    var r := Analyze(text, p);
    assert r.depression.level == Depression.LowRisk && r.stress.level == Stress.Low;
    assert r.recommendations == Recommend.ForLevels(Depression.LowRisk, Stress.Low);
    Recommend.CalmLowRiskIsSelfCare();
  }
}

=== FILE: recommend.dfy ===
/** Recommendation selection: three fixed messages chosen by the
    depression score band, then two, two or no messages chosen by the
    stress score band. */
module Recommend {
  import Depression
  import Stress

  /** The recommendation messages, by identity; `Wording` gives the text
      each one is shown with. */
  datatype Advice =
    | ContactProfessional | CallHelpline | AvoidIsolation
    | SeeCounsellor | KeepJournal | SleepAndMeals
    | PractiseSelfCare | KeepConnections | StayActive
    | BreathingExercise | TakeBreaks
    | CalmingMusic | ShortWalks

  function Wording(a: Advice): string {
    match a
    case ContactProfessional => "🚨 Contact a mental health professional immediately."
    case CallHelpline => "Call Helpline: 988 (US) or your local support line."
    case AvoidIsolation => "Avoid isolation—reach out to trusted people."
    case SeeCounsellor => "📞 Talk to a counselor or therapist soon."
    case KeepJournal => "Keep a daily gratitude or mood journal."
    case SleepAndMeals => "Focus on sleep, sunlight, and healthy meals."
    case PractiseSelfCare => "💚 Keep practicing self-care."
    case KeepConnections => "Maintain social connections."
    case StayActive => "Stay active and hydrated."
    case BreathingExercise => "🧘 Try breathing exercises (4-7-8 technique)."
    case TakeBreaks => "Take breaks often and delegate tasks."
    case CalmingMusic => "🎧 Listen to calming music."
    case ShortWalks => "Take short walks or stretch breaks."
  }

  const UrgentAdvice: seq<Advice> := [ContactProfessional, CallHelpline, AvoidIsolation]
  const CounsellingAdvice: seq<Advice> := [SeeCounsellor, KeepJournal, SleepAndMeals]
  const SelfCareAdvice: seq<Advice> := [PractiseSelfCare, KeepConnections, StayActive]
  const HighStressAdvice: seq<Advice> := [BreathingExercise, TakeBreaks]
  const ModerateStressAdvice: seq<Advice> := [CalmingMusic, ShortWalks]

  /** Depression score bands: at least 70, at least 50, below 50. */
  datatype MoodBand = Urgent | Counselling | SelfCare

  /** Stress score bands: at least 70, at least 40, below 40. */
  datatype StressBand = Acute | Raised | Calm

  function MoodBandOf(score: int): MoodBand {
    if score >= 70 then Urgent else if score >= 50 then Counselling else SelfCare
  }

  function StressBandOf(score: int): StressBand {
    if score >= 70 then Acute else if score >= 40 then Raised else Calm
  }

  /** The messages each depression band contributes: always three. */
  function MoodAdvice(b: MoodBand): (r: seq<Advice>)
    ensures |r| == 3
  {
    match b
    case Urgent => UrgentAdvice
    case Counselling => CounsellingAdvice
    case SelfCare => SelfCareAdvice
  }

  /** The messages each stress band contributes: two, two or none. */
  function StressAdvice(b: StressBand): (r: seq<Advice>)
    ensures |r| == (if b == Calm then 0 else 2)
  {
    match b
    case Acute => HighStressAdvice
    case Raised => ModerateStressAdvice
    case Calm => []
  }

  /** The texts of a list of messages, as they are reported. */
  function Texts(r: seq<Advice>): (t: seq<string>)
    ensures |t| == |r|
    ensures forall i :: 0 <= i < |r| ==> t[i] == Wording(r[i])
  {
    seq(|r|, i requires 0 <= i < |r| => Wording(r[i]))
  }

  /** `get_recommendations`. The list starts with the three messages of the
      depression band and ends with the messages of the stress band, so it
      has five entries when the stress score is at least 40 and three
      otherwise. */
  function Recommendations(d: Depression.Assessment, s: Stress.Assessment): (r: seq<Advice>)
    ensures |r| == 3 || |r| == 5
    ensures |r| == 5 <==> s.score >= 40
    ensures r[..3] == MoodAdvice(MoodBandOf(d.score))
    ensures r[3..] == StressAdvice(StressBandOf(s.score))
  {
    var rec :=
      if d.score >= 70 then UrgentAdvice
      else if d.score >= 50 then CounsellingAdvice
      else SelfCareAdvice;
    if s.score >= 70 then rec + HighStressAdvice
    else if s.score >= 40 then rec + ModerateStressAdvice
    else rec
  }

  /** No message is listed twice. */
  predicate NoRepeats(r: seq<Advice>) {
    forall i, j :: 0 <= i < j < |r| ==> r[i] != r[j]
  }

  /** A recommendation list never repeats a message. */
  lemma RecommendationsHaveNoRepeats(d: Depression.Assessment, s: Stress.Assessment)
    ensures NoRepeats(Recommendations(d, s))
  {
    var r := Recommendations(d, s);
    var m, t := MoodAdvice(MoodBandOf(d.score)), StressAdvice(StressBandOf(s.score));
    assert r == m + t;
    forall i, j | 0 <= i < 3 && 3 <= j < |r|
      ensures r[i] != r[j]
    {
      assert r[i] == m[i] && r[j] == t[j - 3];
    }
  }

  /** The list tells the two bands apart: two assessment pairs get the same
      list exactly when they fall in the same depression band and the same
      stress band. */
  lemma RecommendationsDetermineBands(d1: Depression.Assessment, s1: Stress.Assessment,
                                      d2: Depression.Assessment, s2: Stress.Assessment)
    ensures Recommendations(d1, s1) == Recommendations(d2, s2) <==>
      MoodBandOf(d1.score) == MoodBandOf(d2.score) && StressBandOf(s1.score) == StressBandOf(s2.score)
  {
    var r1, r2 := Recommendations(d1, s1), Recommendations(d2, s2);
    if r1 == r2 {
      assert r1[..3] == r2[..3] && r1[3..] == r2[3..];
      var m1, m2 := MoodAdvice(MoodBandOf(d1.score)), MoodAdvice(MoodBandOf(d2.score));
      assert m1[0] == m2[0];
      var t1, t2 := StressAdvice(StressBandOf(s1.score)), StressAdvice(StressBandOf(s2.score));
      assert t1 == t2;
      if |t1| > 0 {
        assert t1[0] == t2[0];
      }
    }
  }

  function MoodBandOfLevel(l: Depression.Level): MoodBand {
    match l
    case Dangerous => Urgent
    case HighRisk => Urgent
    case ModerateRisk => Counselling
    case LowRisk => SelfCare
  }

  function StressBandOfLevel(l: Stress.Level): StressBand {
    match l
    case High => Acute
    case Moderate => Raised
    case Low => Calm
  }

  /** The advice for a pair of levels, as a reference for what the
      score-based selection amounts to. */
  function ForLevels(dl: Depression.Level, sl: Stress.Level): (r: seq<Advice>)
    ensures |r| == (if sl == Stress.Low then 3 else 5)
  {
    MoodAdvice(MoodBandOfLevel(dl)) + StressAdvice(StressBandOfLevel(sl))
  }

  /** Low risk and low stress give exactly the three self-care messages. */
  lemma CalmLowRiskIsSelfCare()
    ensures ForLevels(Depression.LowRisk, Stress.Low) == SelfCareAdvice
  {
    assert ForLevels(Depression.LowRisk, Stress.Low) == SelfCareAdvice + [];
  }

  /** For the assessments the analysers produce, the score bands coincide
      with the levels, so the recommendations depend on the levels alone. */
  lemma RecommendationsFollowLevels(d: Depression.Assessment, s: Stress.Assessment)
    requires d.score == Depression.ScoreOf(d.level)
    requires s.level == Stress.High <==> s.score >= 70
    requires s.level == Stress.Moderate <==> 40 <= s.score < 70
    ensures Recommendations(d, s) == ForLevels(d.level, s.level)
  {
    var r := Recommendations(d, s);
    assert r == r[..3] + r[3..];
  }
}

=== FILE: stress.dfy ===
/** Stress assessment: sentiment strength plus weighted stress-tier tallies,
    capped at 100, bucketed into three levels and reported as an integer. */
module Stress {
  import opened Text
  import opened Lexicon

  /** A sentiment polarity, as the sentiment analyser returns it. */
  type Polarity = p: real | -1.0 <= p <= 1.0

  datatype Level = High | Moderate | Low

  datatype Assessment = Assessment(level: Level, score: int, explanation: string)

  function LevelName(l: Level): string {
    match l
    case High => "HIGH STRESS"
    case Moderate => "MODERATE STRESS"
    case Low => "LOW STRESS"
  }

  /** The fixed message each level is reported with. */
  function Message(l: Level): string {
    match l
    case High => "🔴 High stress detected. Take immediate steps to relax."
    case Moderate => "🟡 Moderate stress. Try mindfulness or rest."
    case Low => "🟢 You appear calm and balanced."
  }

  function Abs(x: real): (r: real)
    ensures r >= 0.0 && (r == x || r == -x)
  {
    if x < 0.0 then -x else x
  }

  /** Conversion of a real to an integer by truncation toward zero. */
  function Truncate(x: real): (r: int)
    ensures x >= 0.0 ==> 0 <= r && r as real <= x < r as real + 1.0
    ensures x < 0.0 ==> r <= 0 && r as real - 1.0 < x <= r as real
  {
    if x >= 0.0 then x.Floor else -((-x).Floor)
  }

  /** Weighted keyword contribution: 40, 25 and 10 per high, medium and
      low hit. */
  function KeywordStress(high: nat, med: nat, low: nat): (k: nat)
    ensures k >= 40 * high && k >= 25 * med && k >= 10 * low
  {
    high * 40 + med * 25 + low * 10
  }

  /** The stress score before truncation: the sentiment part |p| * 30 plus
      the keyword part, capped at 100. */
  function RawScore(p: Polarity, keyword: nat): (s: real)
    ensures 0.0 <= s <= 100.0
    ensures s <= Abs(p) * 30.0 + keyword as real
    ensures s < 100.0 ==> s == Abs(p) * 30.0 + keyword as real
    ensures Abs(p) * 30.0 + keyword as real >= 100.0 ==> s == 100.0
  {
    var sum := Abs(p) * 30.0 + keyword as real;
    if sum < 100.0 then sum else 100.0
  }

  /** Threshold bucketing of the un-truncated score. */
  function Bucket(s: real): Level {
    if s >= 70.0 then High
    else if s >= 40.0 then Moderate
    else Low
  }

  /** The assessment for a polarity and given tallies. The reported score is
      an integer in [0, 100], and the level agrees with that integer although
      the bucketing is done on the real score before truncation. */
  function Assess(p: Polarity, high: nat, med: nat, low: nat): (a: Assessment)
    ensures 0 <= a.score <= 100
    ensures a.level == High <==> a.score >= 70
    ensures a.level == Moderate <==> 40 <= a.score < 70
    ensures a.level == Low <==> a.score < 40
    ensures a.explanation == Message(a.level)
    ensures var sum := Abs(p) * 30.0 + (40 * high + 25 * med + 10 * low) as real;
      a.score as real <= sum && (a.score == 100 || sum < a.score as real + 1.0)
  {
    var s := RawScore(p, KeywordStress(high, med, low));
    var l := Bucket(s);
    Assessment(l, Truncate(s), Message(l))
  }

  /** For a non-negative real and an integer threshold, truncation keeps
      the side of the threshold. */
  lemma TruncateKeepsThreshold(x: real, t: int)
    requires x >= 0.0
    ensures Truncate(x) >= t <==> x >= t as real
  {
  }

  /** Truncation does not reverse order. */
  lemma TruncateMonotone(x: real, y: real)
    requires 0.0 <= x <= y
    ensures Truncate(x) <= Truncate(y)
  {
  }

  /** With the polarity fixed, more hits in any tier never lower the
      stress score. */
  lemma AssessMonotone(p: Polarity, h1: nat, m1: nat, l1: nat, h2: nat, m2: nat, l2: nat)
    requires h1 <= h2 && m1 <= m2 && l1 <= l2
    ensures Assess(p, h1, m1, l1).score <= Assess(p, h2, m2, l2).score
  {
    var k1, k2 := KeywordStress(h1, m1, l1), KeywordStress(h2, m2, l2);
    assert k1 <= k2;
    var x, y := RawScore(p, k1), RawScore(p, k2);
    assert x <= y;
    TruncateMonotone(x, y);
  }

  /** Without any stress keyword the score is the sentiment part alone, at
      most 30, so the level is LOW STRESS. */
  lemma NoKeywordsIsLow(p: Polarity)
    ensures Assess(p, 0, 0, 0).score <= 30
    ensures Assess(p, 0, 0, 0).level == Low
  {
    assert RawScore(p, KeywordStress(0, 0, 0)) <= 30.0;
  }

  /** The reported score is never below the keyword part, up to the cap:
      the sentiment part only adds. */
  lemma ScoreAtLeastKeywords(p: Polarity, high: nat, med: nat, low: nat)
    ensures Assess(p, high, med, low).score >= (if KeywordStress(high, med, low) < 100 then KeywordStress(high, med, low) else 100)
  {
    var k := KeywordStress(high, med, low);
    var x := RawScore(p, k);
    var n := if k < 100 then k else 100;
    assert x >= n as real;
    TruncateKeepsThreshold(x, n);
  }

  /** A single high-stress hit already gives at least MODERATE STRESS. */
  lemma HighHitIsAtLeastModerate(p: Polarity, high: nat, med: nat, low: nat)
    requires high >= 1
    ensures Assess(p, high, med, low).level != Low
  {
  }

  /** `analyze_stress_level`, with the sentiment polarity of the text given
      as a parameter. */
  function AnalyzeStress(text: string, p: Polarity): (a: Assessment)
    ensures 0 <= a.score <= 100
    ensures a.level == High <==> a.score >= 70
    ensures a.level == Moderate <==> 40 <= a.score < 70
    ensures a.level == Low <==> a.score < 40
    ensures a.explanation == Message(a.level)
    ensures var sum := Abs(p) * 30.0 +
      (40 * Tally(text, StressHigh) + 25 * Tally(text, StressMedium) + 10 * Tally(text, StressLow)) as real;
      a.score as real <= sum && (a.score == 100 || sum < a.score as real + 1.0)
  {
    Assess(p, Tally(text, StressHigh), Tally(text, StressMedium), Tally(text, StressLow))
  }

  /** A text with no stress phrase at all is LOW STRESS, whatever its
      polarity. */
  lemma KeywordFreeTextIsLow(text: string, p: Polarity)
    requires NoneOccur(text, StressHigh)
    requires NoneOccur(text, StressMedium)
    requires NoneOccur(text, StressLow)
    ensures AnalyzeStress(text, p).level == Low
  {
    assert Tally(text, StressHigh) == 0;
    assert Tally(text, StressMedium) == 0;
    assert Tally(text, StressLow) == 0;
    NoKeywordsIsLow(p);
  }

  /** Texts equal up to case, with the same polarity, get the same
      assessment. */
  lemma AnalyzeIgnoresCase(a: string, b: string, p: Polarity)
    requires SameIgnoringCase(a, b)
    ensures AnalyzeStress(a, p) == AnalyzeStress(b, p)
  {
    LowerIgnoresCase(a, b);
  }

  /** With the polarity fixed, writing more never lowers the stress score. */
  lemma AnalyzeGrowsWithText(text: string, pre: string, post: string, p: Polarity)
    ensures AnalyzeStress(text, p).score <= AnalyzeStress(pre + text + post, p).score
  {
    var t := pre + text + post;
    TallyGrowsWithText(text, pre, post, StressHigh);
    TallyGrowsWithText(text, pre, post, StressMedium);
    TallyGrowsWithText(text, pre, post, StressLow);
    AssessMonotone(p,
      Tally(text, StressHigh), Tally(text, StressMedium), Tally(text, StressLow),
      Tally(t, StressHigh), Tally(t, StressMedium), Tally(t, StressLow));
  }
}

=== FILE: text.dfy ===
/** Character case and substring search on strings, as the keyword tallies
    use them: the text is lower-cased once and each phrase is then looked
    up with substring containment (`phrase in text`). */
module Text {

  /** The Kelvin sign U+212A, the one non-ASCII character whose lower-case
      form is an ASCII letter on its own ('k'). */
  const KelvinSign: char := '\U{212A}'

  /** `u` is a capital form of the lower-case letter `l`: its ASCII capital,
      or the Kelvin sign for 'k'. */
  predicate CapitalOf(u: char, l: char) {
    || ('a' <= l <= 'z' && u as int == l as int - 32)
    || (u == KelvinSign && l == 'k')
  }

  /** A capital letter that lower-casing changes: an ASCII capital or the
      Kelvin sign. */
  predicate IsUpper(c: char) {
    'A' <= c <= 'Z' || c == KelvinSign
  }

  /** `a` and `b` are the same character up to case: equal, one a capital
      form of the other, or both capital forms of 'k' (the one letter with
      two, 'K' and the Kelvin sign). */
  predicate CaseVariants(a: char, b: char) {
    || a == b
    || CapitalOf(a, b)
    || CapitalOf(b, a)
    || (CapitalOf(a, 'k') && CapitalOf(b, 'k'))
  }

  /** Two strings that are equal when case is ignored. */
  predicate SameIgnoringCase(a: string, b: string) {
    |a| == |b| && forall i :: 0 <= i < |a| ==> CaseVariants(a[i], b[i])
  }

  /** True iff `s` has no capital letter that lower-casing changes. */
  predicate IsLowerCase(s: string) {
    forall i :: 0 <= i < |s| ==> !IsUpper(s[i])
  }

  /** One character lower-cased: the capitals become their letter, every
      other character stays as it is. */
  function LowerChar(c: char): (r: char)
    ensures !IsUpper(r)
    ensures CaseVariants(c, r)
    ensures r == c <==> !IsUpper(c)
  {
    if 'A' <= c <= 'Z' then (c as int + 32) as char
    else if c == KelvinSign then 'k'
    else c
  }

  /** The lower-cased text: the same length, no capitals left, and every
      character the original one up to case. */
  function Lower(s: string): (r: string)
    ensures SameIgnoringCase(s, r)
    ensures IsLowerCase(r)
  {
    seq(|s|, i requires 0 <= i < |s| => LowerChar(s[i]))
  }

  /** The contract of `Lower` pins its result down: any lower-case string
      that matches `s` up to case is `Lower(s)`. */
  lemma LowerIsUnique(s: string, r: string)
    requires SameIgnoringCase(s, r) && IsLowerCase(r)
    ensures r == Lower(s)
  {
    var l := Lower(s);
    forall i | 0 <= i < |s|
      ensures r[i] == l[i]
    {
      assert CaseVariants(s[i], r[i]) && !IsUpper(r[i]);
      assert CaseVariants(s[i], l[i]) && !IsUpper(l[i]);
    }
  }

  /** Lower-casing is case-insensitive, and it forgets nothing but case:
      two texts have the same lower-cased form exactly when they are equal
      up to case. */
  lemma LowerIgnoresCase(a: string, b: string)
    ensures SameIgnoringCase(a, b) <==> Lower(a) == Lower(b)
  {
    var la, lb := Lower(a), Lower(b);
    if SameIgnoringCase(a, b) {
      forall i | 0 <= i < |a|
        ensures la[i] == lb[i]
      {
        assert CaseVariants(a[i], b[i]);
      }
    }
    if la == lb {
      forall i | 0 <= i < |a|
        ensures CaseVariants(a[i], b[i])
      {
        assert LowerChar(a[i]) == la[i] == lb[i] == LowerChar(b[i]);
      }
    }
  }

  /** Lower-casing distributes over concatenation. */
  lemma LowerConcat(a: string, b: string)
    ensures Lower(a + b) == Lower(a) + Lower(b)
  {
    var l, r := Lower(a + b), Lower(a) + Lower(b);
    forall i | 0 <= i < |a + b|
      ensures l[i] == r[i]
    {
      if i < |a| {
        assert (a + b)[i] == a[i];
      } else {
        assert (a + b)[i] == b[i - |a|];
      }
    }
  }

  predicate IsPrefix(k: string, s: string) {
    |k| <= |s| && s[..|k|] == k
  }

  /** Substring containment, `k in s`: `k` is a prefix of `s` or of some
      suffix of `s`. */
  predicate Occurs(k: string, s: string)
    ensures Occurs(k, s) ==> |k| <= |s|
    decreases |s|
  {
    IsPrefix(k, s) || (|s| > 0 && Occurs(k, s[1..]))
  }

  /** `k` occurs in `s` starting at position `i`. */
  ghost predicate OccursAt(k: string, s: string, i: int) {
    0 <= i && i + |k| <= |s| && s[i..i + |k|] == k
  }

  /** A phrase sitting at some position of the text is found by the search. */
  lemma {:induction false} PositionGivesOccurs(k: string, s: string, i: int)
    requires OccursAt(k, s, i)
    ensures Occurs(k, s)
    decreases i
  {
    if i == 0 {
      assert s[..|k|] == s[0..|k|];
    } else {
      assert s[1..][i - 1..i - 1 + |k|] == s[i..i + |k|];
      PositionGivesOccurs(k, s[1..], i - 1);
    }
  }

  /** A phrase the search finds sits at some position of the text. */
  lemma {:induction false} OccursGivesPosition(k: string, s: string)
    requires Occurs(k, s)
    ensures exists i :: OccursAt(k, s, i)
    decreases |s|
  {
    if IsPrefix(k, s) {
      assert OccursAt(k, s, 0);
    } else {
      OccursGivesPosition(k, s[1..]);
      var i :| OccursAt(k, s[1..], i);
      assert s[1..][i..i + |k|] == s[i + 1..i + 1 + |k|];
      assert OccursAt(k, s, i + 1);
    }
  }

  /** The recursive search agrees with the positional definition of a
      substring, in both directions. */
  lemma OccursIffSomePosition(k: string, s: string)
    ensures Occurs(k, s) <==> exists i :: OccursAt(k, s, i)
  {
    forall i | OccursAt(k, s, i)
      ensures Occurs(k, s)
    {
      PositionGivesOccurs(k, s, i);
    }
    if Occurs(k, s) {
      OccursGivesPosition(k, s);
    }
  }

  /** A phrase found in a text is still found after text is added before or
      after it. */
  lemma OccursInContext(k: string, s: string, pre: string, post: string)
    requires Occurs(k, s)
    ensures Occurs(k, pre + s + post)
  {
    OccursIffSomePosition(k, s);
    var i :| OccursAt(k, s, i);
    var t := pre + s + post;
    assert t[|pre| + i..|pre| + i + |k|] == s[i..i + |k|];
    assert OccursAt(k, t, |pre| + i);
    OccursIffSomePosition(k, t);
  }

  /** Containment is transitive: a phrase inside a phrase found in the text
      is found in the text too. */
  lemma OccursTransitive(a: string, b: string, s: string)
    requires Occurs(a, b) && Occurs(b, s)
    ensures Occurs(a, s)
  {
    OccursIffSomePosition(a, b);
    OccursIffSomePosition(b, s);
    var i :| OccursAt(a, b, i);
    var j :| OccursAt(b, s, j);
    forall n | 0 <= n < |a|
      ensures s[j + i + n] == a[n]
    {
      assert a[n] == b[i + n];
      assert b[i + n] == s[j + i + n];
    }
    assert s[j + i..j + i + |a|] == a;
    assert OccursAt(a, s, j + i);
    OccursIffSomePosition(a, s);
  }
}
